=== FILE: README.md ===
# Token table view-state model

A Dafny model of the logic behind the live token-discovery table of
`axiom-trade-table`. What stays after the React markup, the Radix widgets and the
timers are taken away:

- the **redux UI slice**: the active tab, the sort column and direction, and the
  selected symbol, as a pure reducer over an immutable record (`UiSlice`);
- the **projection** the table renders. It maps the tab to a tag, keeps the base
  tokens with that tag, overlays the latest tick per symbol, and sorts stably with
  a comparator scaled by ±1 for the direction (`Discovery`, `TokenSort`, `LexOrder`);
- the **simulated price feed**. One tick picks a token, moves its price, change and
  volume with clamps, and emits a copy. The seed list and the copying fetch are
  modelled too (`Tokens`, with the JavaScript number built-ins in `JsNumber`);
- the **session** that wires these together. `PriceBus.start` receives the very
  array the query returned, so a tick writes that array in place and also merges a
  copy into the live map. The model assumes the query resolves once and proves that
  the live map then always mirrors the data, so the overlay never changes an
  entry (`Session`);
- the **string helpers** `cn` and the precision choice of `formatPrice` (`Utils`);
- concrete runs that pin the behaviour down on small inputs (`Scenarios`).

Numbers are exact reals. `toFixed` is modelled as rounding half away from zero to
the given number of decimals, and `Math.round` as rounding half up. The four
`Math.random()` results of a tick are a `Draws` parameter. The sort is a stable
insertion sort, because `Array.prototype.sort` is stable (section 23.1.3.30 of
ECMA-262, 2023 edition). Descending order multiplies the comparator by −1, so ties
keep their base-data order in both directions. Stability is stated as follows: for
every token `y`, the entries tying with `y` appear in the same order before and
after sorting. This holds even when the list has duplicates. The projection is a
function of `(data, live, tab, key, dir)`. It returns a new sequence and cannot
change `data`, which matches the memo's sort running on the fresh array from `.map`.

What the code does not do, and the model therefore does not do either:

- `openDetails` does not check the symbol: it stores any symbol, listed or not.
- Nothing clears the selection when its token leaves the list. The dialog stays
  open and the details lookup finds nothing (`Scenarios.NoEvictionScenario`).
  The dialog is modal and blocks clicks on the tabs behind it, so in the page this
  state is reached only by a dispatch from code, not by a click.
- Nothing counts revisions, and loading never fails or reports that data was
  already loaded. A tick always targets a token of the list it was started on,
  so there is no outcome for an unknown symbol.
- A tick does not touch market cap, and the price floor is the constant 0.0001.
- The filter does not look at the live overlay: it tests the base token's tag.
- `open={!!selectedSymbol}` does not tell an empty symbol from no selection
  (`Discovery.DialogFollowsSelection`).

## Model

| member | source | states |
|---|---|---|
| JsNumber.Max | lib/mock-data.ts:92-97 | `Math.max` of two numbers is at least each of them and is one of them |
| JsNumber.MathRound | lib/mock-data.ts:97-100 | `Math.round` gives the integer nearest its argument, with a tie going up |
| JsNumber.FixedDigits | lib/mock-data.ts:93 | the digits `n` of `x.toFixed(d)` lie within half a unit of `x * 10^d`, a tie going to the larger magnitude (up for non-negative `x`, down for negative `x`), and are non-negative for non-negative `x` |
| JsNumber.ToFixed | lib/mock-data.ts:93 | the value of `+x.toFixed(d)` lies within half a unit of the last decimal of `x`, and a non-negative argument rounds to a non-negative value |
| JsNumber.ToFixedUnique | lib/mock-data.ts:93 | for every count `n` of `d`-th decimals that rounds `x` in that window, `+x.toFixed(d)` is `n / 10^d`. So the result has at most `d` decimals and is fixed uniquely, ties included |
| JsNumber.ToFixedKeepsDecimals | lib/mock-data.ts:93 | a value that already has at most `d` decimals, `n / 10^d`, is returned unchanged |
| JsNumber.ToFixedOdd | lib/mock-data.ts:95 | rounding to fixed decimals is symmetric around zero (negative changes round like positive ones) |
| JsNumber.ToFixedIdempotent | lib/mock-data.ts:93 | rounding an already rounded value to the same number of decimals leaves it unchanged |
| LexOrder.LexCompare | components/token-discovery.tsx:73 | the name comparison returns −1, 0 or 1, and returns 0 exactly for equal names |
| LexOrder.LexAntisymmetric | components/token-discovery.tsx:73 | swapping the names negates the comparison |
| LexOrder.LexTransitive | components/token-discovery.tsx:73 | the name order is transitive |
| Tokens.TagLabelInjective | lib/mock-data.ts:9 | two tags have equal label strings exactly when they are the same tag, so the source's string test on tags is the model's tag equality |
| Tokens.FetchTokens | lib/mock-data.ts:114-117 | the fetched list equals the seed, in order and in every field: seven tokens with pairwise distinct symbols, each at or above the price floor and with non-negative volume |
| Tokens.PickIndex | lib/mock-data.ts:89 | the index is the whole part of the draw times the list's length |
| Tokens.PickIndexInRange | lib/mock-data.ts:89 | `floor(r * n)` for a draw `r` in [0, 1) and a non-empty list is a valid index |
| Tokens.TickToken | lib/mock-data.ts:92-100 | after a tick the price is at least 0.0001 and the volume at least 0, and only price, change and volume differ from the token before |
| Tokens.PriceMoveBounded | lib/mock-data.ts:92-93 | the price moves by at most 1% of max(1, price) plus half of the fourth decimal, the floor included |
| Tokens.DeltaBounded | lib/mock-data.ts:92 | the unrounded price move stays within ±1% of max(1, price) |
| Tokens.ChangeMoveBounded | lib/mock-data.ts:95 | the 24h change moves by at most 0.25 plus half a cent |
| Tokens.VolumeMoveBounded | lib/mock-data.ts:97-100 | the volume moves by at most 25000.5 |
| Tokens.PriceBusTick | lib/mock-data.ts:88-107 | a tick succeeds exactly when the drawn index is in range. It replaces only the token at that index, leaves the others and the length unchanged, and emits a detail equal to the mutated token |
| Tokens.PriceBusTickDefined | lib/mock-data.ts:89-90 | with draws in [0, 1), a tick happens exactly when the list is non-empty |
| Tokens.PriceBusTickPreserves | lib/mock-data.ts:89-100 | a tick keeps every token above its floors, keeps every symbol and tag in place, and so keeps symbols distinct |
| UiSlice.SetTab | lib/ui-slice.ts:24-26 | `setTab` sets the tab and keeps the sort column, direction and selection |
| UiSlice.SetSort | lib/ui-slice.ts:27-34 | after `setSort(k)` the column is `k`. The direction flips when `k` was already active and is descending otherwise. Tab and selection are untouched |
| UiSlice.OpenDetails | lib/ui-slice.ts:35-37 | `openDetails` stores the given symbol without any membership check and changes nothing else |
| UiSlice.CloseDetails | lib/ui-slice.ts:38-40 | `closeDetails` clears the selection and changes nothing else |
| UiSlice.Reduce | lib/ui-slice.ts:20-42 | each action applies its own case: `setTab` writes the tab; `setSort` writes the column, flipping the direction on the active column and starting a new one descending; `openDetails` stores the symbol and `closeDetails` clears it. Each action writes only its own part of the state: only `setTab` changes the tab, only `setSort` the column and direction, and `setTab` and `setSort` never touch the selection |
| UiSlice.SetSortTwiceRestores | lib/ui-slice.ts:28-29 | two clicks on the active column restore the original state |
| UiSlice.SetSortNewKeyTwice | lib/ui-slice.ts:27-33 | two clicks on a new column sort it ascending |
| UiSlice.RepeatSortParity | lib/ui-slice.ts:27-34 | after n ≥ 1 clicks on column `k`, the sort column is `k` and the direction depends only on the parity of n and on whether `k` was active |
| UiSlice.CloseDetailsIdempotent | lib/ui-slice.ts:35-40 | closing twice is closing once, and opening then closing is closing |
| UiSlice.ReduceAllLastWriterWins | lib/ui-slice.ts:20-42 | over any sequence of actions, the tab is the one chosen by the last `setTab` and the selection is the one left by the last `openDetails` or `closeDetails` |
| TokenSort.KeyCompareSign | components/token-discovery.tsx:70-74 | the name comparison lies in [−1, 1] and is zero exactly for equal names; the numeric comparison has the sign of the difference of the two column values and is zero exactly when they are equal |
| TokenSort.Compare | components/token-discovery.tsx:68-75 | the comparator is zero exactly when the two tokens tie in the sort column, in either direction |
| TokenSort.CompareAntisymmetric | components/token-discovery.tsx:68-75 | swapping the operands negates the comparator |
| TokenSort.CompareTransitive | components/token-discovery.tsx:68-75 | the comparator's "at most" relation is transitive in both directions |
| TokenSort.Insert | components/token-discovery.tsx:68 | inserting adds exactly the one token: the result is the list plus that token as a multiset |
| TokenSort.Sort | components/token-discovery.tsx:68-75 | the sort is a permutation of its input |
| TokenSort.InsertSorted | components/token-discovery.tsx:68 | inserting into a sorted list keeps it sorted |
| TokenSort.SortSorted | components/token-discovery.tsx:68-75 | the sort output is ordered by the comparator |
| TokenSort.InsertTies | components/token-discovery.tsx:68 | an inserted token lands before the entries it ties with, which keeps the input order because it is the earliest of them |
| TokenSort.SortStable | components/token-discovery.tsx:68-75 | for every token `y`, the entries tying with `y` keep their input order |
| TokenSort.SortedMeaning | components/token-discovery.tsx:69-74 | ascending means non-decreasing and descending means non-increasing in the column, for names and numbers alike |
| Discovery.TabTag | components/token-discovery.tsx:57-62 | each tab maps to the tag whose tab is that tab again |
| Discovery.TabTagBijective | components/token-discovery.tsx:57-62 | the tab-to-tag mapping is injective and onto the three tags |
| Discovery.FilterByTag | components/token-discovery.tsx:64-65 | the filter keeps at most all of the tokens, and every kept token carries the tag |
| Discovery.FilterAppend | components/token-discovery.tsx:64-65 | filtering distributes over concatenation, so the kept tokens stay in base-data order |
| Discovery.Resolve | components/token-discovery.tsx:66 | a token whose symbol has a live entry is replaced by that entry, and any other token stays itself |
| Discovery.Overlay | components/token-discovery.tsx:66 | the overlay keeps the list's length, replaces every token that has a live entry by that entry, leaves every other token in place, and is the identity when no tick has arrived |
| Discovery.FilterMembers | components/token-discovery.tsx:64-65 | the filter keeps exactly the base tokens carrying the tag |
| Discovery.FilterCount | components/token-discovery.tsx:64-65 | the filter keeps as many tokens as there are base tokens with the tag |
| Discovery.Project | components/token-discovery.tsx:54-76 | the projection has as many entries as the base has tokens with the tab's tag, is a permutation of the overlaid filtered list, and is ordered by the comparator |
| Discovery.ProjectView | components/token-discovery.tsx:54-56 | before the data has loaded the table is empty; afterwards it has one row per base token of the tab's tag, ordered by the comparator |
| Discovery.ProjectFromBase | components/token-discovery.tsx:64-66 | every listed entry is `live[symbol] ?? t` for a base token `t` whose own tag is the tab's tag |
| Discovery.ProjectComplete | components/token-discovery.tsx:64-66 | every base token with the tab's tag is listed, in its resolved form |
| Discovery.ProjectStable | components/token-discovery.tsx:68-75 | entries tying in the sort column keep their base-data order, so ascending and descending list them in the same relative order |
| Discovery.MergeTick | components/token-discovery.tsx:44 | the merge sets the tick's symbol to the tick and leaves every other key and value unchanged |
| Discovery.FindBySymbol | components/token-discovery.tsx:293-294 | the lookup finds a token exactly when one has the symbol, and then returns the first such entry |
| Discovery.DetailsAbsentWhenUnlisted | components/token-discovery.tsx:293-294 | a symbol that no token of the tab resolves to yields no details |
| Discovery.DialogOpen | components/token-discovery.tsx:136 | `!!selectedSymbol` is false when no symbol is selected and when the selected symbol is empty |
| Discovery.DialogFollowsSelection | components/token-discovery.tsx:135-137 | the dialog is open after `openDetails(s)` exactly when `s` is non-empty and closed after `closeDetails`, and tab and sort actions do not change it |
| Discovery.Details | components/token-discovery.tsx:146-147 | details are shown only while the dialog is open and only for a listed entry with the selected symbol, and they are shown whenever such an entry exists |
| Session.Step | components/token-discovery.tsx:39-51 | a dispatch applies the reducer to the UI state and changes neither the data nor the live map; the first load stores the fetched list and a later one changes nothing; a tick that succeeds stores the mutated array and merges its detail into the live map, and one that finds no data or throws changes nothing. Only a dispatch changes the UI state, and once loaded the data stays loaded |
| Session.TickPreservesMirror | components/token-discovery.tsx:42-48 | after a tick, every live entry is still the current data token with its symbol |
| Session.StepPreservesInv | components/token-discovery.tsx:39-51 | every event keeps symbols distinct, tokens above their floors, and the live map in step with the data |
| Session.RunPreservesInv | components/token-discovery.tsx:39-51 | the invariant holds after any sequence of events |
| Session.OverlayIsIdentity | components/token-discovery.tsx:64-66 | in every reachable state the overlay changes no entry, so the list the memo sorts is the tab's base tokens |
| Session.ViewEntriesWellFormed | components/token-discovery.tsx:54-76 | from the start state, every row on screen carries the tab's tag, a price of at least 0.0001 and a non-negative volume |
| Session.SelectionOnlyChangedByDetails | lib/ui-slice.ts:23-41 | only `openDetails` and `closeDetails` change the selection. Ticks, loading, tab and sort changes never evict it |
| Scenarios.SortToggleScenario | components/token-discovery.tsx:64-75 | with A(New, 10), B(New, 30), C(Migrated, 20), the initial state (volume, descending) lists [B, A]. The first click on the volume header lists [A, B], and a second click restores the initial state |
| Scenarios.TiesNotReversedScenario | components/token-discovery.tsx:68-75 | two tokens with equal volume come out in data order both ascending and descending |
| Scenarios.NoEvictionScenario | components/token-discovery.tsx:135-148 | selecting AXM and switching to the Migrated tab leaves AXM selected and the dialog open, with no details |
| Scenarios.InitialScreenScenario | lib/ui-slice.ts:13-18 | the first screen after loading lists the new pairs by volume, largest first: GAMMA, AXM, PULSE |
| Utils.Kept | lib/utils.ts:2 | `filter(Boolean)` keeps exactly the non-empty strings among the arguments |
| Utils.KeptAppend | lib/utils.ts:2 | filtering commutes with concatenation, so the kept strings stay in argument order |
| Utils.JoinSpace | lib/utils.ts:2 | `join(" ")` opens with the first string and is empty only when there is nothing to join or a single empty string |
| Utils.JoinLength | lib/utils.ts:2 | joining puts exactly one space between consecutive strings: the length is the total of the strings plus one less than their number |
| Utils.Cn | lib/utils.ts:1-3 | the class string is empty exactly when every argument is falsy |
| Utils.CnLength | lib/utils.ts:2 | the result's length is the sum of the kept lengths plus one separator between each pair |
| Utils.CnIdempotent | lib/utils.ts:2 | `cn` of `cn`'s result is that result |
| Utils.CnClassList | lib/utils.ts:2 | read as a class attribute, `cn`'s result lists the classes of its truthy arguments in order. For single-class arguments it reads back as exactly the kept arguments |
| Utils.PriceDecimals | lib/utils.ts:10 | prices below one get four decimals and all others two |
| Utils.FormatPrice | lib/utils.ts:9-11 | below one the shown value is `n.toFixed(4)` and off by at most 0.00005; from one up it is `n.toFixed(2)` and off by at most 0.005; a non-negative price never shows as negative |
| Utils.FormatPriceShowsFloor | lib/utils.ts:9-11 | four decimals below 1 and two otherwise, so any price at or above the feed's floor never displays as zero. A larger price never gets more decimals |

## Left out

- Rendering: the JSX, the Radix tooltip, popover and dialog shells, `Row`'s flash timer, `Header` and `Info`. These are presentation only.
- Timers and wiring: the 1500 ms `setInterval` cadence, the interval that is never cleared, the listener removal, the 800 ms fetch delay and the `useEffect`/`useMemo`/`useQuery` plumbing. Events are applied one at a time by `Session.Step`.
- Refetching: the model assumes the query resolves once, in a single `Loaded` event. In the code only window-focus refetching is switched off (`components/providers.tsx:14-15`). React Query still refetches on reconnect and on remount once the data is older than its 10 s `staleTime`. After such a refetch the effect starts the bus on the new array, while `live` still holds copies of the old tokens. It also starts a second interval.
- Session.OverlayIsIdentity: holds only under the single-load assumption above. After a refetch the live map no longer mirrors the data, so this lemma and `Session.LiveMirrorsData` do not describe that state.
- The fetch's error path: `fetchTokens` never rejects, so the error screen is not modelled.
- Floating point: numbers are reals. The string output of `toFixed`, `compactNumber` and `Intl.NumberFormat` are left out. `formatPrice` is modelled by the numeric value it shows.
- Randomness: the four `Math.random()` results are parameters.
- Record lookup on JavaScript objects: `live[...]` on keys such as `"constructor"` reads prototype properties. The model's map holds only the keys written to it.
- JsNumber.ToFixed: its own contract gives only the error bound and the sign. Which value it returns is stated by `JsNumber.FixedDigits` (the digits lie in the rounding window) together with `JsNumber.ToFixedUnique` (any digits in that window give the result). This keeps the proofs that use `ToFixed` small.
- LexOrder.LexCompare: compares by Unicode code point (Dafny strings are sequences of scalar values, not UTF-16 code units) instead of `localeCompare`'s locale collation, which is not modelled.
- Tokens.PickIndexInRange: assumes exact real multiplication, so the floating-point rounding of `Math.random() * n` is not modelled.

=== FILE: js_number.dfy ===
/**
 The numeric built-ins of JavaScript that the token table relies on, over
 exact reals: `Math.max`, `Math.round`, `Math.floor` and the numeric value of
 `Number.prototype.toFixed` read back with unary `+`.
 */
module JsNumber {

  function Max(a: real, b: real): (r: real)
    ensures r >= a && r >= b
    ensures r == a || r == b
  {
    if a >= b then a else b
  }

  function Abs(x: real): real {
    if x < 0.0 then -x else x
  }

  function Pow10(d: nat): (p: nat)
    ensures p >= 1
  {
    if d == 0 then 1 else 10 * Pow10(d - 1)
  }

  /** `Math.round`: the nearest integer, ties going towards positive infinity. */
  function MathRound(x: real): (r: int)
    ensures x - 0.5 < r as real <= x + 0.5
  {
    (x + 0.5).Floor
  }

  /**
   `z` is the rounding of `y` to a whole number of units: within half a unit,
   with a tie going to the larger magnitude (up for `y >= 0`, down otherwise).
   */
  predicate RoundWindow(y: real, z: real) {
    if y >= 0.0 then y - 0.5 < z <= y + 0.5 else y - 0.5 <= z < y + 0.5
  }

  /** `n / 10^d` is `x` rounded to `d` decimals, a tie going to the larger magnitude. */
  predicate RoundsTo(x: real, d: nat, n: int) {
    RoundWindow(x * (Pow10(d) as real), n as real)
  }

  /**
   The integer `n` such that `+x.toFixed(d)` is `n / 10^d`: the digits are
   chosen for the magnitude of `x` (ties going to the larger magnitude) and the
   sign is put back in front, so rounding is symmetric around zero.
   */
  function FixedDigits(x: real, d: nat): (n: int)
    ensures RoundsTo(x, d, n)
    ensures x >= 0.0 ==> n >= 0
  {
    var y := x * (Pow10(d) as real);
    assert y >= 0.0 <==> x >= 0.0;
    if x < 0.0 then -MathRound(-y) else MathRound(y)
  }

  /**
   `+x.toFixed(d)`: `x` rounded to `d` decimals. The result lies within half a
   unit of the last decimal of `x` and keeps the sign of a non-negative `x`;
   `ToFixedUnique` states which value in that range it is.
   */
  function ToFixed(x: real, d: nat): (r: real)
    ensures Abs(r - x) <= 0.5 / (Pow10(d) as real)
    ensures x >= 0.0 ==> r >= 0.0
  {
    var p := Pow10(d) as real;
    var n := FixedDigits(x, d);
    Rescale(x, p, n);
    n as real / p
  }

  /**
   Dividing the rounded digits `n` of `x * p` by `p` gives a value within half
   of `1 / p` of `x` that keeps the sign of `x`.
   */
  lemma Rescale(x: real, p: real, n: int)
    requires p >= 1.0
    requires RoundWindow(x * p, n as real)
    requires x >= 0.0 ==> n >= 0
    ensures Abs(n as real / p - x) <= 0.5 / p
    ensures x >= 0.0 ==> n as real / p >= 0.0
  {
    DivideError(x * p, n, p);
    assert x * p / p == x;
  }

  /** Scaling a rounding error of at most one half by `1 / p`. */
  lemma DivideError(y: real, n: int, p: real)
    requires p >= 1.0
    requires RoundWindow(y, n as real)
    ensures Abs(n as real / p - y / p) <= 0.5 / p
  {
    var e := n as real - y;
    assert n as real / p - y / p == e / p;
    if e >= 0.0 {
      assert e / p <= 0.5 / p;
    } else {
      assert -e / p <= 0.5 / p;
    }
  }

  /** A half-open window of width one holds at most one integer. */
  lemma WindowUnique(y: real, n: int, m: int)
    requires RoundWindow(y, n as real) && RoundWindow(y, m as real)
    ensures n == m
  {
  }

  /**
   The rounding is determined by its window: whatever count `n` of `d`-th
   decimals rounds `x`, `toFixed` returns `n / 10^d`. With `FixedDigits`, which
   shows such a count always exists, this pins down the value of `toFixed`.
   */
  lemma ToFixedUnique(x: real, d: nat, n: int)
    requires RoundsTo(x, d, n)
    ensures ToFixed(x, d) == n as real / (Pow10(d) as real)
  {
    WindowUnique(x * (Pow10(d) as real), n, FixedDigits(x, d));
  }

  /** The digits of a negated value are the negated digits. */
  lemma FixedDigitsOdd(x: real, d: nat)
    ensures FixedDigits(-x, d) == -FixedDigits(x, d)
  {
    assert (-x) * (Pow10(d) as real) == -(x * (Pow10(d) as real));
  }

  /** Rounding a negated value negates the rounded value. */
  lemma ToFixedOdd(x: real, d: nat)
    ensures ToFixed(-x, d) == -ToFixed(x, d)
  {
    var p := Pow10(d) as real;
    FixedDigitsOdd(x, d);
    assert ToFixed(-x, d) == (-FixedDigits(x, d)) as real / p;
  }

  /** A whole number of `d`-th decimals is its own rounding. */
  lemma WholeRounds(n: int, d: nat)
    ensures RoundsTo(n as real / (Pow10(d) as real), d, n)
  {
    var p := Pow10(d) as real;
    assert (n as real / p) * p == n as real;
  }

  /** A value that already has at most `d` decimals, `n / 10^d`, is left as it is. */
  lemma ToFixedKeepsDecimals(n: int, d: nat)
    ensures ToFixed(n as real / (Pow10(d) as real), d) == n as real / (Pow10(d) as real)
  {
    WholeRounds(n, d);
    ToFixedUnique(n as real / (Pow10(d) as real), d, n);
  }

  /** Rounding twice is rounding once. */
  lemma ToFixedIdempotent(x: real, d: nat)
    ensures ToFixed(ToFixed(x, d), d) == ToFixed(x, d)
  {
    var n := FixedDigits(x, d);
    ToFixedUnique(x, d, n);
    ToFixedKeepsDecimals(n, d);
  }
}

=== FILE: lex_order.dfy ===
/**
 A three-way comparison of strings by Unicode code point. It stands in for
 `String.prototype.localeCompare`, whose collation depends on the locale; the
 sort only needs a total order whose ties are exactly the equal strings.
 */
module LexOrder {

  /** Negative, zero or positive as `a` sorts before, with or after `b`. */
  function LexCompare(a: string, b: string): (c: int)
    ensures -1 <= c <= 1
    ensures c == 0 <==> a == b
  {
    if |a| == 0 then (if |b| == 0 then 0 else -1)
    else if |b| == 0 then 1
    else if a[0] < b[0] then -1
    else if a[0] > b[0] then 1
    else
      assert a == [a[0]] + a[1..] && b == [b[0]] + b[1..];
      LexCompare(a[1..], b[1..])
  }

  lemma {:induction false} LexAntisymmetric(a: string, b: string)
    ensures LexCompare(a, b) == -LexCompare(b, a)
  {
    if |a| > 0 && |b| > 0 && a[0] == b[0] {
      LexAntisymmetric(a[1..], b[1..]);
    }
  }

  lemma {:induction false} LexTransitive(a: string, b: string, c: string)
    requires LexCompare(a, b) <= 0 && LexCompare(b, c) <= 0
    ensures LexCompare(a, c) <= 0
  {
    if |a| > 0 && |b| > 0 && |c| > 0 && a[0] == b[0] && b[0] == c[0] {
      LexTransitive(a[1..], b[1..], c[1..]);
    }
  }
}

=== FILE: scenarios.dfy ===
/** Concrete runs of the model that pin down the behaviour on small inputs. */
module Scenarios {
  import opened Wrappers
  import opened Tokens
  import opened UiSlice
  import opened TokenSort
  import opened Discovery
  import opened Session

  const A: Token := Token("A", "Alpha", 1.0, 0.0, 10.0, 100.0, ETH, New)
  const B: Token := Token("B", "Beta", 1.0, 0.0, 30.0, 100.0, ETH, New)
  const C: Token := Token("C", "Gamma", 1.0, 0.0, 20.0, 100.0, SOL, Migrated)

  lemma FilterScenario()
    ensures Candidates([A, B, C], map[], NewPairs) == [A, B]
  {
    assert [A, B, C][1..] == [B, C] && [B, C][1..] == [C] && [C][1..] == [];
    assert FilterByTag([C], New) == [];
    assert FilterByTag([B, C], New) == [B];
    assert FilterByTag([A, B, C], New) == [A, B];
  }

  /**
   The initial state sorts by volume, largest first, and lists B before A. The
   first click on the volume header lists A before B, and a second click brings
   back the initial state.
   */
  lemma SortToggleScenario()
    ensures Project([A, B, C], map[], Initial.tab, Initial.sortKey, Initial.sortDir) == [B, A]
    ensures var s := SetSort(Initial, Volume);
      Project([A, B, C], map[], s.tab, s.sortKey, s.sortDir) == [A, B]
    ensures SetSort(SetSort(Initial, Volume), Volume) == Initial
  {
    assert SetSort(Initial, Volume) == UiState(NewPairs, Volume, Asc, None);
    FilterScenario();
    assert [A, B][1..] == [B] && [B][1..] == [];
    assert Sort(Volume, Desc, [B]) == [B];
    assert Compare(Volume, Desc, A, B) > 0.0;
    assert Insert(Volume, Desc, A, [B]) == [B] + Insert(Volume, Desc, A, []);
    assert Sort(Volume, Desc, [A, B]) == [B, A];
    assert Sort(Volume, Asc, [B]) == [B];
    assert Compare(Volume, Asc, A, B) <= 0.0;
    assert Sort(Volume, Asc, [A, B]) == [A, B];
  }

  /** Two tokens with the same volume keep their data order in both directions. */
  lemma TiesNotReversedScenario()
    ensures Sort(Volume, Desc, [A, A.(symbol := "A2")]) == [A, A.(symbol := "A2")]
    ensures Sort(Volume, Asc, [A, A.(symbol := "A2")]) == [A, A.(symbol := "A2")]
  {
    var s := [A, A.(symbol := "A2")];
    assert s[1..] == [A.(symbol := "A2")];
  }

  /**
   Selecting a listed token and then switching to a tab that does not list it
   leaves the selection and the open dialog in place with nothing to show. The
   dialog is modal, so in the page only a dispatch from code reaches this state,
   not a click on a tab.
   */
  lemma NoEvictionScenario()
    ensures var s := Run(Start, [Loaded, Dispatch(OpenDetailsAction("AXM")), Dispatch(SetTabAction(MigratedTab))]);
      && s.ui.selectedSymbol == Some("AXM")
      && DialogOpen(s.ui)
      && SelectedDetail(s).None?
  {
    var events := [Loaded, Dispatch(OpenDetailsAction("AXM")), Dispatch(SetTabAction(MigratedTab))];
    var s1 := Session(Some(Seed), map[], Initial);
    var s2 := s1.(ui := OpenDetails(Initial, "AXM"));
    var s3 := s2.(ui := SetTab(s2.ui, MigratedTab));
    assert Step(Start, Loaded) == s1;
    assert Step(s1, events[1]) == s2;
    assert Step(s2, events[2]) == s3;
    RunSteps(Start, events);
    assert Run(Start, events) == s3;
    assert s3.ui == UiState(MigratedTab, Volume, Desc, Some("AXM"));
    MigratedTabOmitsAxm();
  }

  lemma RunSteps(s: Session, events: seq<Event>)
    requires |events| == 3
    ensures Run(s, events) == Step(Step(Step(s, events[0]), events[1]), events[2])
  {
    var s1 := Step(s, events[0]);
    var s2 := Step(s1, events[1]);
    assert Run(s, events) == Run(s1, events[1..]);
    assert Run(s1, events[1..]) == Run(s2, events[2..]);
    assert Run(s2, events[2..]) == Run(Step(s2, events[2]), events[3..]);
  }

  lemma MigratedTabOmitsAxm()
    ensures FindBySymbol(Project(Seed, map[], MigratedTab, Volume, Desc), "AXM").None?
  {
    forall i | 0 <= i < |Seed| && Seed[i].tag == TabTag(MigratedTab)
      ensures Resolve(map[], Seed[i]).symbol != "AXM"
    {
    }
    DetailsAbsentWhenUnlisted(Seed, map[], MigratedTab, Volume, Desc, "AXM");
  }

  /** The first screen after loading: new pairs by volume, largest first. */
  lemma InitialScreenScenario()
    ensures View(Run(Start, [Loaded])) == [Gamma, Axm, Pulse]
  {
    assert Run(Start, [Loaded]) == Session(Some(Seed), map[], Initial) by {
      assert [Loaded][1..] == [];
    }
    SeedNewPairs();
    SortNewPairs();
  }

  lemma SortNewPairs()
    ensures Sort(Volume, Desc, [Axm, Pulse, Gamma]) == [Gamma, Axm, Pulse]
  {
    SortPulseGamma();
    SortCons(Axm, [Pulse, Gamma]);
    assert [Axm, Pulse, Gamma] == [Axm] + [Pulse, Gamma];
    InsertAxm();
  }

  lemma SortPulseGamma()
    ensures Sort(Volume, Desc, [Pulse, Gamma]) == [Gamma, Pulse]
  {
    SortCons(Gamma, []);
    SortCons(Pulse, [Gamma]);
    assert [Pulse, Gamma] == [Pulse] + [Gamma];
    assert Compare(Volume, Desc, Pulse, Gamma) > 0.0;
    assert Insert(Volume, Desc, Pulse, [Gamma]) == [Gamma] + Insert(Volume, Desc, Pulse, []);
  }

  lemma InsertAxm()
    ensures Insert(Volume, Desc, Axm, [Gamma, Pulse]) == [Gamma, Axm, Pulse]
  {
    assert Compare(Volume, Desc, Axm, Pulse) <= 0.0;
    assert Insert(Volume, Desc, Axm, [Pulse]) == [Axm, Pulse];
    assert Compare(Volume, Desc, Axm, Gamma) > 0.0;
    assert [Gamma, Pulse][1..] == [Pulse];
    assert Insert(Volume, Desc, Axm, [Gamma, Pulse]) == [Gamma] + Insert(Volume, Desc, Axm, [Pulse]);
  }

  lemma SortCons(t: Token, rest: seq<Token>)
    ensures Sort(Volume, Desc, [t] + rest) == Insert(Volume, Desc, t, Sort(Volume, Desc, rest))
  {
    assert ([t] + rest)[0] == t && ([t] + rest)[1..] == rest;
  }

  lemma SeedNewPairs()
    ensures FilterByTag(Seed, New) == [Axm, Pulse, Gamma]
  {
    SeedTailNewPairs();
    var tail := [Solx, Brdg, Bnova, Gamma, Echo];
    FilterCons(Pulse, tail, New);
    FilterCons(Axm, [Pulse] + tail, New);
    assert Seed == [Axm] + ([Pulse] + tail);
  }

  lemma SeedTailNewPairs()
    ensures FilterByTag([Solx, Brdg, Bnova, Gamma, Echo], New) == [Gamma]
  {
    FilterCons(Echo, [], New);
    FilterCons(Gamma, [Echo], New);
    var g := [Gamma, Echo];
    FilterCons(Bnova, g, New);
    FilterCons(Brdg, [Bnova] + g, New);
    FilterCons(Solx, [Brdg] + ([Bnova] + g), New);
    assert [Solx, Brdg, Bnova, Gamma, Echo] == [Solx] + ([Brdg] + ([Bnova] + g));
  }

  lemma FilterCons(t: Token, rest: seq<Token>, tag: Tag)
    ensures FilterByTag([t] + rest, tag) == (if t.tag == tag then [t] else []) + FilterByTag(rest, tag)
  {
    assert ([t] + rest)[0] == t && ([t] + rest)[1..] == rest;
  }
}

=== FILE: session.dfy ===
/**
 One mounted token table: the fetched data (absent while loading), the live
 map fed by ticks, and the redux view state. `PriceBus.start` is handed the
 very array the query returned, so a tick writes the chosen token in that
 array and also sends a copy to the live map.
 */
module Session {
  import opened Wrappers
  import opened Tokens
  import opened UiSlice
  import opened Discovery

  datatype Session = Session(data: Option<seq<Token>>, live: map<string, Token>, ui: UiState)

  const Start: Session := Session(None, map[], Initial)

  datatype Event =
    | Dispatch(action: Action)
    | Loaded
    | PriceTick(draws: Draws)

  /**
   One event. The model assumes the query resolves once (README, Left out);
   ticks start only after data has arrived, and a tick whose index misses the
   list throws before changing anything.
   */
  function Step(s: Session, e: Event): (r: Session)
    ensures !e.Dispatch? ==> r.ui == s.ui
    ensures e.Dispatch? ==> r.data == s.data && r.live == s.live
    ensures s.data.Some? || e.Loaded? ==> r.data.Some?
    ensures s.data.None? && !e.Loaded? ==> r.data.None?
    ensures e.Dispatch? ==> r.ui == Reduce(s.ui, e.action)
    ensures e.Loaded? && s.data.None? ==> r.data == Some(FetchTokens()) && r.live == s.live
    ensures e.Loaded? && s.data.Some? ==> r == s
    ensures e.PriceTick? && s.data.Some? && PriceBusTick(s.data.value, e.draws).Some? ==>
      r.data == Some(PriceBusTick(s.data.value, e.draws).value.tokens) &&
      r.live == MergeTick(s.live, PriceBusTick(s.data.value, e.draws).value.detail)
    ensures e.PriceTick? && (s.data.None? || PriceBusTick(s.data.value, e.draws).None?) ==> r == s
  {
    match e
    case Dispatch(a) => s.(ui := Reduce(s.ui, a))
    case Loaded => if s.data.None? then s.(data := Some(FetchTokens())) else s
    case PriceTick(d) =>
      if s.data.None? then s
      else match PriceBusTick(s.data.value, d)
        case None => s
        case Some(o) => s.(data := Some(o.tokens), live := MergeTick(s.live, o.detail))
  }

  function Run(s: Session, events: seq<Event>): Session
    decreases |events|
  {
    if |events| == 0 then s else Run(Step(s, events[0]), events[1..])
  }

  /** The rows on screen. */
  function View(s: Session): seq<Token> {
    ProjectView(s.data, s.live, s.ui)
  }

  /** What the details dialog shows. */
  function SelectedDetail(s: Session): Option<Token> {
    Details(View(s), s.ui)
  }

  /** Every live entry is the current base token with that symbol. */
  predicate LiveMirrorsData(data: seq<Token>, live: map<string, Token>) {
    forall k :: k in live ==> exists i :: 0 <= i < |data| && data[i].symbol == k && live[k] == data[i]
  }

  predicate Inv(s: Session) {
    match s.data
    case None => s.live == map[]
    case Some(d) =>
      && SymbolsDistinct(d)
      && (forall i :: 0 <= i < |d| ==> WellFormed(d[i]))
      && LiveMirrorsData(d, s.live)
  }

  lemma TickPreservesMirror(d: seq<Token>, live: map<string, Token>, draws: Draws)
    requires SymbolsDistinct(d) && LiveMirrorsData(d, live)
    requires PriceBusTick(d, draws).Some?
    ensures var o := PriceBusTick(d, draws).value;
      LiveMirrorsData(o.tokens, MergeTick(live, o.detail))
  {
    var o := PriceBusTick(d, draws).value;
    var idx := PickIndex(draws.pick, |d|);
    var live' := MergeTick(live, o.detail);
    forall k | k in live'
      ensures exists i :: 0 <= i < |o.tokens| && o.tokens[i].symbol == k && live'[k] == o.tokens[i]
    {
      if k == o.detail.symbol {
        assert o.tokens[idx].symbol == k;
      } else {
        var i :| 0 <= i < |d| && d[i].symbol == k && live[k] == d[i];
        assert i != idx;
        assert o.tokens[i] == d[i];
      }
    }
  }

  /** Every event keeps symbols distinct, tokens above their floors and the live map in step with the data. */
  lemma StepPreservesInv(s: Session, e: Event)
    requires Inv(s)
    ensures Inv(Step(s, e))
  {
    match e
    case Dispatch(a) =>
    case Loaded =>
    case PriceTick(d) =>
      if s.data.Some? && PriceBusTick(s.data.value, d).Some? {
        PriceBusTickPreserves(s.data.value, d);
        TickPreservesMirror(s.data.value, s.live, d);
      }
  }

  lemma {:induction false} RunPreservesInv(s: Session, events: seq<Event>)
    requires Inv(s)
    ensures Inv(Run(s, events))
    decreases |events|
  {
    if |events| > 0 {
      StepPreservesInv(s, events[0]);
      RunPreservesInv(Step(s, events[0]), events[1..]);
    }
  }

  /**
   Because ticks write the base array in place, the overlay never changes an
   entry: the list the memo sorts is just the tab's base tokens.
   */
  lemma OverlayIsIdentity(s: Session)
    requires Inv(s) && s.data.Some?
    ensures Candidates(s.data.value, s.live, s.ui.tab) == FilterByTag(s.data.value, TabTag(s.ui.tab))
  {
    var d := s.data.value;
    var f := FilterByTag(d, TabTag(s.ui.tab));
    var c := Candidates(d, s.live, s.ui.tab);
    FilterMembers(d, TabTag(s.ui.tab));
    forall k | 0 <= k < |f|
      ensures c[k] == f[k]
    {
      assert f[k] in f;
      var j :| 0 <= j < |d| && d[j] == f[k];
      if f[k].symbol in s.live {
        var i :| 0 <= i < |d| && d[i].symbol == f[k].symbol && s.live[f[k].symbol] == d[i];
        assert i == j;
      }
    }
  }

  /** From any reachable state, the rows on screen carry the tab's tag and respect the price and volume floors. */
  lemma ViewEntriesWellFormed(events: seq<Event>)
    ensures var s := Run(Start, events);
      forall e :: e in View(s) ==> e.tag == TabTag(s.ui.tab) && WellFormed(e)
  {
    var s := Run(Start, events);
    RunPreservesInv(Start, events);
    if s.data.Some? {
      var d := s.data.value;
      OverlayIsIdentity(s);
      FilterMembers(d, TabTag(s.ui.tab));
      forall e | e in View(s)
        ensures e.tag == TabTag(s.ui.tab) && WellFormed(e)
      {
        var c := Candidates(d, s.live, s.ui.tab);
        assert e in multiset(c);
        assert e in FilterByTag(d, TabTag(s.ui.tab));
      }
    }
  }

  /**
   Nothing but `openDetails`/`closeDetails` writes the selection: a tick, a
   load, a tab change or a sort change keeps it, even when the selected token
   leaves the list.
   */
  lemma SelectionOnlyChangedByDetails(s: Session, e: Event)
    ensures !(e.Dispatch? && (e.action.OpenDetailsAction? || e.action.CloseDetailsAction?)) ==>
      Step(s, e).ui.selectedSymbol == s.ui.selectedSymbol
    ensures e.Dispatch? && e.action.OpenDetailsAction? ==> Step(s, e).ui.selectedSymbol == Some(e.action.symbol)
  {
  }
}

=== FILE: token_discovery.dfy ===
/**
 The view logic of the token table (`components/token-discovery.tsx`): the
 tab-to-tag mapping, the filter/overlay/sort projection, the merge of a tick
 into the live map, the dialog-open test and the details lookup.
 */
module Discovery {
  import opened Wrappers
  import opened Tokens
  import opened UiSlice
  import opened TokenSort

  /** The tag a tab lists. */
  function TabTag(tab: Tab): (g: Tag)
    ensures TabOfTag(g) == tab
  {
    match tab
    case NewPairs => New
    case FinalStretchTab => FinalStretch
    case MigratedTab => Migrated
  }

  /** The tab that lists a tag. */
  function TabOfTag(g: Tag): Tab {
    match g
    case New => NewPairs
    case FinalStretch => FinalStretchTab
    case Migrated => MigratedTab
  }

  /** Every tag is listed by exactly one tab, and distinct tabs list distinct tags. */
  lemma TabTagBijective(a: Tab, b: Tab, g: Tag)
    ensures TabTag(TabOfTag(g)) == g
    ensures TabTag(a) == TabTag(b) ==> a == b
  {
  }

  /** The tags of `data`, in order. */
  function TagsOf(data: seq<Token>): seq<Tag> {
    seq(|data|, i requires 0 <= i < |data| => data[i].tag)
  }

  /** `data.filter((t) => t.tag === tag)`. */
  function FilterByTag(data: seq<Token>, tag: Tag): (r: seq<Token>)
    ensures |r| <= |data|
    ensures forall i :: 0 <= i < |r| ==> r[i].tag == tag
  {
    if |data| == 0 then []
    else (if data[0].tag == tag then [data[0]] else []) + FilterByTag(data[1..], tag)
  }

  /** Filtering distributes over concatenation, so the kept tokens stay in base-data order. */
  lemma {:induction false} FilterAppend(a: seq<Token>, b: seq<Token>, tag: Tag)
    ensures FilterByTag(a + b, tag) == FilterByTag(a, tag) + FilterByTag(b, tag)
  {
    if |a| > 0 {
      var ab := a + b;
      var h := if a[0].tag == tag then [a[0]] else [];
      assert ab[0] == a[0] && ab[1..] == a[1..] + b;
      assert FilterByTag(ab, tag) == h + FilterByTag(a[1..] + b, tag);
      FilterAppend(a[1..], b, tag);
      assert FilterByTag(a, tag) == h + FilterByTag(a[1..], tag);
    } else {
      assert a + b == b;
    }
  }

  /** The filter keeps exactly the base tokens carrying the tag. */
  lemma {:induction false} FilterMembers(data: seq<Token>, tag: Tag)
    ensures forall t :: t in FilterByTag(data, tag) <==> t in data && t.tag == tag
  {
    if |data| > 0 {
      FilterMembers(data[1..], tag);
      assert data == [data[0]] + data[1..];
    }
  }

  /** The filter keeps as many tokens as there are base tokens with the tag. */
  lemma {:induction false} FilterCount(data: seq<Token>, tag: Tag)
    ensures |FilterByTag(data, tag)| == multiset(TagsOf(data))[tag]
  {
    if |data| > 0 {
      assert TagsOf(data) == [data[0].tag] + TagsOf(data[1..]);
      FilterCount(data[1..], tag);
    }
  }

  /** `live[sym]`: the latest tick of `sym`, or `undefined` when none arrived. */
  function Lookup(live: map<string, Token>, sym: string): Option<Token> {
    if sym in live then Some(live[sym]) else None
  }

  /** `live[t.symbol] ?? t`: the latest tick of the token's symbol, else the token. */
  function Resolve(live: map<string, Token>, t: Token): (r: Token)
    ensures t.symbol in live ==> r == live[t.symbol]
    ensures t.symbol !in live ==> r == t
  {
    Lookup(live, t.symbol).GetOr(t)
  }

  /** `.map((t) => live[t.symbol] ?? t)`. */
  function Overlay(list: seq<Token>, live: map<string, Token>): (r: seq<Token>)
    ensures |r| == |list|
    ensures forall i :: 0 <= i < |list| && list[i].symbol !in live ==> r[i] == list[i]
    ensures forall i :: 0 <= i < |list| && list[i].symbol in live ==> r[i] == live[list[i].symbol]
    ensures live == map[] ==> r == list
  {
    seq(|list|, i requires 0 <= i < |list| => Resolve(live, list[i]))
  }

  /** The list the memo sorts: the tab's tokens, overlaid, in base-data order. */
  function Candidates(data: seq<Token>, live: map<string, Token>, tab: Tab): seq<Token> {
    Overlay(FilterByTag(data, TabTag(tab)), live)
  }

  /**
   The `filtered` memo once data has arrived: the tab's tokens with live
   values overlaid, sorted by the chosen column and direction. It builds a new
   list and leaves `data` as it was.
   */
  function Project(data: seq<Token>, live: map<string, Token>, tab: Tab, key: SortKey, dir: SortDir): (r: seq<Token>)
    ensures |r| == multiset(TagsOf(data))[TabTag(tab)]
    ensures multiset(r) == multiset(Candidates(data, live, tab))
    ensures Sorted(key, dir, r)
  {
    FilterCount(data, TabTag(tab));
    SortSorted(key, dir, Candidates(data, live, tab));
    Sort(key, dir, Candidates(data, live, tab))
  }

  /** Each listed entry is the resolved form of a base token carrying the tab's tag. */
  lemma ProjectFromBase(data: seq<Token>, live: map<string, Token>, tab: Tab, key: SortKey, dir: SortDir)
    ensures forall e :: e in Project(data, live, tab, key, dir) ==>
      exists i :: 0 <= i < |data| && data[i].tag == TabTag(tab) && e == Resolve(live, data[i])
  {
    var c := Candidates(data, live, tab);
    var f := FilterByTag(data, TabTag(tab));
    FilterMembers(data, TabTag(tab));
    forall e | e in Project(data, live, tab, key, dir)
      ensures exists i :: 0 <= i < |data| && data[i].tag == TabTag(tab) && e == Resolve(live, data[i])
    {
      assert e in multiset(c);
      var k :| 0 <= k < |c| && c[k] == e;
      assert f[k] in f;
      var i :| 0 <= i < |data| && data[i] == f[k];
    }
  }

  /** Each base token carrying the tab's tag is listed, in its resolved form. */
  lemma ProjectComplete(data: seq<Token>, live: map<string, Token>, tab: Tab, key: SortKey, dir: SortDir)
    ensures forall i :: 0 <= i < |data| && data[i].tag == TabTag(tab) ==>
      Resolve(live, data[i]) in Project(data, live, tab, key, dir)
  {
    var c := Candidates(data, live, tab);
    var f := FilterByTag(data, TabTag(tab));
    FilterMembers(data, TabTag(tab));
    forall i | 0 <= i < |data| && data[i].tag == TabTag(tab)
      ensures Resolve(live, data[i]) in Project(data, live, tab, key, dir)
    {
      assert data[i] in f;
      var k :| 0 <= k < |f| && f[k] == data[i];
      assert c[k] == Resolve(live, data[i]);
      assert c[k] in multiset(c);
    }
  }

  /**
   Entries tying in the sort column keep their base-data order, and so they
   come out in the same order whether the column is sorted up or down.
   */
  lemma ProjectStable(data: seq<Token>, live: map<string, Token>, tab: Tab, key: SortKey, y: Token)
    ensures Ties(key, Project(data, live, tab, key, Asc), y) == Ties(key, Candidates(data, live, tab), y)
    ensures Ties(key, Project(data, live, tab, key, Desc), y) == Ties(key, Candidates(data, live, tab), y)
  {
    SortStable(key, Asc, Candidates(data, live, tab), y);
    SortStable(key, Desc, Candidates(data, live, tab), y);
  }

  /** `if (!data) return []`: nothing is listed while the fetch is pending. */
  function ProjectView(data: Option<seq<Token>>, live: map<string, Token>, ui: UiState): (r: seq<Token>)
    ensures data.None? ==> r == []
    ensures data.Some? ==> |r| == multiset(TagsOf(data.value))[TabTag(ui.tab)]
    ensures Sorted(ui.sortKey, ui.sortDir, r)
  {
    if data.None? then [] else Project(data.value, live, ui.tab, ui.sortKey, ui.sortDir)
  }

  /** The tick handler: `{ ...prev, [detail.symbol]: detail }`. */
  function MergeTick(live: map<string, Token>, detail: Token): (r: map<string, Token>)
    ensures r.Keys == live.Keys + {detail.symbol}
    ensures r[detail.symbol] == detail
    ensures forall k :: k in live && k != detail.symbol ==> r[k] == live[k]
  {
    live[detail.symbol := detail]
  }

  /** No entry before index `i` has the symbol. */
  predicate FirstWith(tokens: seq<Token>, symbol: string, i: int)
    requires 0 <= i <= |tokens|
  {
    forall j :: 0 <= j < i ==> tokens[j].symbol != symbol
  }

  /** `tokens.find((x) => x.symbol === symbol)`: the first entry with that symbol. */
  function FindBySymbol(tokens: seq<Token>, symbol: string): (r: Option<Token>)
    ensures r.Some? <==> exists i :: 0 <= i < |tokens| && tokens[i].symbol == symbol
    ensures r.Some? ==> r.value.symbol == symbol
    ensures r.Some? ==> exists i :: 0 <= i < |tokens| && tokens[i] == r.value && FirstWith(tokens, symbol, i)
  {
    if |tokens| == 0 then None
    else if tokens[0].symbol == symbol then Some(tokens[0])
    else
      var r := FindBySymbol(tokens[1..], symbol);
      assert forall i :: 1 <= i < |tokens| ==> tokens[i] == tokens[1..][i - 1];
      r
  }

  /** A symbol that no token of the tab resolves to is not found in the projection. */
  lemma DetailsAbsentWhenUnlisted(data: seq<Token>, live: map<string, Token>, tab: Tab, key: SortKey, dir: SortDir, symbol: string)
    requires forall i :: 0 <= i < |data| && data[i].tag == TabTag(tab) ==> Resolve(live, data[i]).symbol != symbol
    ensures FindBySymbol(Project(data, live, tab, key, dir), symbol).None?
  {
    var p := Project(data, live, tab, key, dir);
    ProjectFromBase(data, live, tab, key, dir);
    forall k | 0 <= k < |p|
      ensures p[k].symbol != symbol
    {
      assert p[k] in p;
    }
  }

  /** `open={!!selectedSymbol}`: an empty symbol counts as no selection. */
  predicate DialogOpen(ui: UiState)
    ensures DialogOpen(ui) ==> ui.selectedSymbol.Some?
    ensures ui.selectedSymbol == Some("") ==> !DialogOpen(ui)
  {
    ui.selectedSymbol.Some? && ui.selectedSymbol.value != ""
  }

  /** Opening shows the dialog unless the symbol is empty; closing always hides it. */
  lemma DialogFollowsSelection(s: UiState, symbol: string, a: Action)
    ensures DialogOpen(OpenDetails(s, symbol)) <==> symbol != ""
    ensures !DialogOpen(CloseDetails(s))
    ensures (a.SetTabAction? || a.SetSortAction?) ==> DialogOpen(Reduce(s, a)) == DialogOpen(s)
  {
  }

  /** The token the dialog shows: the first listed entry with the selected symbol, if any. */
  function Details(projection: seq<Token>, ui: UiState): (r: Option<Token>)
    ensures r.Some? ==> DialogOpen(ui) && r.value in projection && ui.selectedSymbol == Some(r.value.symbol)
    ensures DialogOpen(ui) && (exists i :: 0 <= i < |projection| && projection[i].symbol == ui.selectedSymbol.value) ==> r.Some?
  {
    if DialogOpen(ui) then FindBySymbol(projection, ui.selectedSymbol.value) else None
  }
}

=== FILE: token_sort.dfy ===
/**
 The comparator and the sort of the `filtered` memo
 (`components/token-discovery.tsx`). `Array.prototype.sort` is stable
 (section 23.1.3.30 of ECMA-262, 2023 edition), so it is modelled by a stable
 insertion sort; only the sign of the comparator matters to it.
 */
module TokenSort {
  import opened Tokens
  import opened UiSlice
  import LexOrder

  /** The numeric column a sort key reads (`(a as any)[sortKey]` for a number). */
  function NumericField(key: SortKey, t: Token): real
    requires key != Name
  {
    match key
    case Price => t.price
    case Change => t.change
    case Volume => t.volume
    case MarketCap => t.marketCap
  }

  /** The ascending comparison: `localeCompare` for the name, subtraction for numbers. */
  function KeyCompare(key: SortKey, a: Token, b: Token): real {
    if key == Name then LexOrder.LexCompare(a.name, b.name) as real
    else NumericField(key, a) - NumericField(key, b)
  }

  /**
   The sign of the ascending comparison: for names it is −1, 0 or 1 and zero
   exactly on equal names; for numbers it is the sign of the difference.
   */
  lemma KeyCompareSign(key: SortKey, a: Token, b: Token)
    ensures key == Name ==> -1.0 <= KeyCompare(key, a, b) <= 1.0
    ensures key == Name ==> (KeyCompare(key, a, b) == 0.0 <==> a.name == b.name)
    ensures key != Name ==> (KeyCompare(key, a, b) > 0.0 <==> NumericField(key, a) > NumericField(key, b))
    ensures key != Name ==> (KeyCompare(key, a, b) == 0.0 <==> NumericField(key, a) == NumericField(key, b))
  {
    if key == Name {
      var c := LexOrder.LexCompare(a.name, b.name);
      assert -1 <= c <= 1 && (c == 0 <==> a.name == b.name);
    }
  }

  function Direction(dir: SortDir): real {
    if dir == Asc then 1.0 else -1.0
  }

  /** The comparator handed to `sort`: the ascending comparison times the direction. */
  function Compare(key: SortKey, dir: SortDir, a: Token, b: Token): (c: real)
    ensures c == 0.0 <==> KeyCompare(key, a, b) == 0.0
  {
    KeyCompare(key, a, b) * Direction(dir)
  }

  /** `a` and `b` are equal in column `key`. */
  predicate Tie(key: SortKey, a: Token, b: Token) {
    KeyCompare(key, a, b) == 0.0
  }

  lemma KeyCompareAntisymmetric(key: SortKey, a: Token, b: Token)
    ensures KeyCompare(key, a, b) == -KeyCompare(key, b, a)
  {
    if key == Name {
      LexOrder.LexAntisymmetric(a.name, b.name);
    }
  }

  lemma CompareAntisymmetric(key: SortKey, dir: SortDir, a: Token, b: Token)
    ensures Compare(key, dir, a, b) == -Compare(key, dir, b, a)
  {
    KeyCompareAntisymmetric(key, a, b);
  }

  lemma KeyCompareTransitive(key: SortKey, a: Token, b: Token, c: Token)
    requires KeyCompare(key, a, b) <= 0.0 && KeyCompare(key, b, c) <= 0.0
    ensures KeyCompare(key, a, c) <= 0.0
  {
    if key == Name {
      LexOrder.LexTransitive(a.name, b.name, c.name);
    }
  }

  lemma CompareTransitive(key: SortKey, dir: SortDir, a: Token, b: Token, c: Token)
    requires Compare(key, dir, a, b) <= 0.0 && Compare(key, dir, b, c) <= 0.0
    ensures Compare(key, dir, a, c) <= 0.0
  {
    if dir == Asc {
      KeyCompareTransitive(key, a, b, c);
    } else {
      KeyCompareAntisymmetric(key, a, b);
      KeyCompareAntisymmetric(key, b, c);
      KeyCompareAntisymmetric(key, a, c);
      KeyCompareTransitive(key, c, b, a);
    }
  }

  /** A token tying with `y` and not with `b` shows that `b` does not tie with `y`. */
  lemma TieSeparates(key: SortKey, a: Token, b: Token, y: Token)
    ensures Tie(key, a, y) && !Tie(key, a, b) ==> !Tie(key, b, y)
  {
  }

  /** Every earlier entry compares at most equal to every later one. */
  predicate Sorted(key: SortKey, dir: SortDir, s: seq<Token>) {
    forall i, j :: 0 <= i < j < |s| ==> Compare(key, dir, s[i], s[j]) <= 0.0
  }

  /** Inserts `x` before the first entry it does not follow, so it lands before the entries it ties with. */
  function Insert(key: SortKey, dir: SortDir, x: Token, l: seq<Token>): (r: seq<Token>)
    ensures multiset(r) == multiset(l) + multiset{x}
    ensures |r| == |l| + 1
  {
    if |l| == 0 then [x]
    else if Compare(key, dir, x, l[0]) <= 0.0 then [x] + l
    else
      assert l == [l[0]] + l[1..];
      [l[0]] + Insert(key, dir, x, l[1..])
  }

  /** Stable insertion sort: the head goes into the sorted tail, ahead of its ties. */
  function Sort(key: SortKey, dir: SortDir, s: seq<Token>): (r: seq<Token>)
    ensures multiset(r) == multiset(s)
    ensures |r| == |s|
  {
    if |s| == 0 then []
    else
      assert s == [s[0]] + s[1..];
      Insert(key, dir, s[0], Sort(key, dir, s[1..]))
  }

  lemma {:induction false} InsertSorted(key: SortKey, dir: SortDir, x: Token, l: seq<Token>)
    requires Sorted(key, dir, l)
    ensures Sorted(key, dir, Insert(key, dir, x, l))
  {
    if |l| == 0 {
    } else if Compare(key, dir, x, l[0]) <= 0.0 {
      InsertFront(key, dir, x, l);
    } else {
      assert Sorted(key, dir, l[1..]);
      InsertSorted(key, dir, x, l[1..]);
      HeadBeforeInserted(key, dir, x, l);
      var tail := Insert(key, dir, x, l[1..]);
      assert Insert(key, dir, x, l) == [l[0]] + tail;
    }
  }

  /** `x` going in front of a sorted list it does not follow keeps the list sorted. */
  lemma InsertFront(key: SortKey, dir: SortDir, x: Token, l: seq<Token>)
    requires Sorted(key, dir, l) && |l| > 0
    requires Compare(key, dir, x, l[0]) <= 0.0
    ensures Sorted(key, dir, [x] + l)
  {
    var r := [x] + l;
    forall j | 1 <= j < |r|
      ensures Compare(key, dir, x, r[j]) <= 0.0
    {
      if j > 1 {
        CompareTransitive(key, dir, x, l[0], l[j - 1]);
      }
    }
  }

  /** When `x` follows the head, the head still precedes everything `x` is inserted among. */
  lemma HeadBeforeInserted(key: SortKey, dir: SortDir, x: Token, l: seq<Token>)
    requires Sorted(key, dir, l) && |l| > 0
    requires Compare(key, dir, x, l[0]) > 0.0
    ensures forall j :: 0 <= j < |Insert(key, dir, x, l[1..])| ==>
      Compare(key, dir, l[0], Insert(key, dir, x, l[1..])[j]) <= 0.0
  {
    var tail := Insert(key, dir, x, l[1..]);
    CompareAntisymmetric(key, dir, x, l[0]);
    forall j | 0 <= j < |tail|
      ensures Compare(key, dir, l[0], tail[j]) <= 0.0
    {
      assert tail[j] in multiset(tail);
      assert tail[j] == x || tail[j] in multiset(l[1..]);
      if tail[j] != x {
        var k :| 0 <= k < |l[1..]| && l[1..][k] == tail[j];
        assert l[k + 1] == tail[j];
      }
    }
  }

  /** The output of `Sort` is ordered by the comparator. */
  lemma {:induction false} SortSorted(key: SortKey, dir: SortDir, s: seq<Token>)
    ensures Sorted(key, dir, Sort(key, dir, s))
  {
    if |s| > 0 {
      SortSorted(key, dir, s[1..]);
      InsertSorted(key, dir, s[0], Sort(key, dir, s[1..]));
    }
  }

  /** The entries of `s` tying with `y` in column `key`, in their order in `s`. */
  function Ties(key: SortKey, s: seq<Token>, y: Token): seq<Token> {
    if |s| == 0 then []
    else (if Tie(key, s[0], y) then [s[0]] else []) + Ties(key, s[1..], y)
  }

  /** The ties of a list with a given head: the head's own contribution, then the rest's. */
  lemma TiesCons(key: SortKey, a: Token, s: seq<Token>, y: Token)
    ensures Ties(key, [a] + s, y) == (if Tie(key, a, y) then [a] else []) + Ties(key, s, y)
  {
    assert ([a] + s)[0] == a && ([a] + s)[1..] == s;
  }

  lemma {:induction false} InsertTies(key: SortKey, dir: SortDir, x: Token, l: seq<Token>, y: Token)
    ensures Ties(key, Insert(key, dir, x, l), y) ==
      (if Tie(key, x, y) then [x] else []) + Ties(key, l, y)
  {
    if |l| == 0 {
      TiesCons(key, x, [], y);
    } else if Compare(key, dir, x, l[0]) <= 0.0 {
      TiesCons(key, x, l, y);
    } else {
      InsertTies(key, dir, x, l[1..], y);
      InsertTiesPast(key, dir, x, l, y);
    }
  }

  /**
   The step of `InsertTies` where `x` goes past the head: the head and `x`
   cannot both tie with `y`, so their order among `y`'s ties does not change.
   */
  lemma InsertTiesPast(key: SortKey, dir: SortDir, x: Token, l: seq<Token>, y: Token)
    requires |l| > 0 && Compare(key, dir, x, l[0]) > 0.0
    requires Ties(key, Insert(key, dir, x, l[1..]), y) ==
      (if Tie(key, x, y) then [x] else []) + Ties(key, l[1..], y)
    ensures Ties(key, Insert(key, dir, x, l), y) ==
      (if Tie(key, x, y) then [x] else []) + Ties(key, l, y)
  {
    var rest := Insert(key, dir, x, l[1..]);
    assert Insert(key, dir, x, l) == [l[0]] + rest;
    TiesCons(key, l[0], rest, y);
    assert l == [l[0]] + l[1..];
    TiesCons(key, l[0], l[1..], y);
    assert !Tie(key, x, l[0]);
    TieSeparates(key, x, l[0], y);
    if Tie(key, x, y) {
      assert !Tie(key, l[0], y);
      assert Ties(key, l, y) == Ties(key, l[1..], y);
    } else {
      assert Ties(key, rest, y) == Ties(key, l[1..], y);
    }
  }

  /**
   Stability: for every token `y`, the entries tying with `y` come out in the
   order they went in, whichever the direction.
   */
  lemma {:induction false} SortStable(key: SortKey, dir: SortDir, s: seq<Token>, y: Token)
    ensures Ties(key, Sort(key, dir, s), y) == Ties(key, s, y)
  {
    if |s| > 0 {
      SortStable(key, dir, s[1..], y);
      InsertTies(key, dir, s[0], Sort(key, dir, s[1..]), y);
    }
  }

  /**
   What the comparator's order means: ascending is non-decreasing in the
   column, descending is non-increasing, for numbers and names alike.
   */
  lemma SortedMeaning(key: SortKey, s: seq<Token>)
    ensures Sorted(key, Asc, s) <==>
      forall i, j :: 0 <= i < j < |s| ==> KeyCompare(key, s[i], s[j]) <= 0.0
    ensures Sorted(key, Desc, s) <==>
      forall i, j :: 0 <= i < j < |s| ==> KeyCompare(key, s[j], s[i]) <= 0.0
    ensures key != Name ==>
      (Sorted(key, Asc, s) <==> forall i, j :: 0 <= i < j < |s| ==> NumericField(key, s[i]) <= NumericField(key, s[j]))
    ensures key != Name ==>
      (Sorted(key, Desc, s) <==> forall i, j :: 0 <= i < j < |s| ==> NumericField(key, s[i]) >= NumericField(key, s[j]))
  {
    forall i, j | 0 <= i < j < |s| {
      KeyCompareAntisymmetric(key, s[i], s[j]);
    }
  }
}

=== FILE: tokens.dfy ===
/**
 The token record, the seed list, the mock fetch and the simulated price feed
 (`lib/mock-data.ts`). Floating-point numbers are exact reals; the four
 `Math.random()` draws of one tick are parameters.
 */
module Tokens {
  import opened Wrappers
  import opened JsNumber

  datatype Chain = ETH | BSC | SOL | BASE

  datatype Tag = New | FinalStretch | Migrated

  /** The string the source stores in a token's `tag` field. */
  function TagLabel(t: Tag): string {
    match t
    case New => "New"
    case FinalStretch => "Final Stretch"
    case Migrated => "Migrated"
  }

  /** Distinct tags are distinct strings, so comparing labels is comparing tags. */
  lemma TagLabelInjective(a: Tag, b: Tag)
    ensures TagLabel(a) == TagLabel(b) <==> a == b
  {
  }

  datatype Token = Token(
    symbol: string,
    name: string,
    price: real,
    change: real,
    volume: real,
    marketCap: real,
    chain: Chain,
    tag: Tag)

  /** Smallest price a tick leaves behind. */
  const MinPrice: real := 0.0001

  /** The floors the price feed maintains. */
  predicate WellFormed(t: Token) {
    t.price >= MinPrice && t.volume >= 0.0
  }

  /** No two tokens of `ts` share a symbol. */
  predicate SymbolsDistinct(ts: seq<Token>) {
    forall i, j :: 0 <= i < j < |ts| ==> ts[i].symbol != ts[j].symbol
  }

  const Axm: Token := Token("AXM", "Axiom", 1.03, 2.4, 12003450.0, 230000000.0, ETH, New)
  const Pulse: Token := Token("PULSE", "Pulse Net", 0.34, -1.3, 5033450.0, 75000000.0, BASE, New)
  const Solx: Token := Token("SOLX", "Sol X", 12.8, 0.6, 90333450.0, 1530000000.0, SOL, FinalStretch)
  const Brdg: Token := Token("BRDG", "BridgeFi", 2.1, -0.2, 20033450.0, 310000000.0, ETH, Migrated)
  const Bnova: Token := Token("BNOVA", "B Nova", 0.89, 4.1, 15033450.0, 120000000.0, BSC, FinalStretch)
  const Gamma: Token := Token("GAMMA", "Gamma", 4.67, 1.7, 18033450.0, 410000000.0, ETH, New)
  const Echo: Token := Token("ECHO", "Echo", 0.053, 0.9, 8033450.0, 50000000.0, BASE, Migrated)

  /** The mock data, in the order the source lists it. */
  const Seed: seq<Token> := [Axm, Pulse, Solx, Brdg, Bnova, Gamma, Echo]

  /**
   `fetchTokens`: a deep copy of the seed list (a JSON round trip, which keeps
   every field of these tokens). Values have no identity here, so the copy
   equals the seed in order and in every field.
   */
  function FetchTokens(): (r: seq<Token>)
    ensures r == Seed
    ensures |r| == 7
    ensures SymbolsDistinct(r)
    ensures forall i :: 0 <= i < |r| ==> WellFormed(r[i])
  {
    Seed
  }

  /** The four `Math.random()` results one tick consumes, in call order. */
  datatype Draws = Draws(pick: real, priceJitter: real, changeJitter: real, volumeJitter: real)

  predicate ValidDraws(d: Draws) {
    && 0.0 <= d.pick < 1.0
    && 0.0 <= d.priceJitter < 1.0
    && 0.0 <= d.changeJitter < 1.0
    && 0.0 <= d.volumeJitter < 1.0
  }

  /** `Math.floor(Math.random() * tokens.length)`. */
  function PickIndex(pick: real, n: nat): (i: int)
    ensures i as real <= pick * n as real < i as real + 1.0
  {
    (pick * n as real).Floor
  }

  lemma PickIndexInRange(pick: real, n: nat)
    requires 0.0 <= pick < 1.0 && n > 0
    ensures 0 <= PickIndex(pick, n) < n
  {
    var i := PickIndex(pick, n);
    assert pick * n as real < n as real;
    assert i as real < n as real;
  }

  /** The price move before rounding: up to one percent of `max(1, price)` either way. */
  function PriceDelta(t: Token, jitter: real): real {
    (jitter - 0.5) * 0.02 * Max(1.0, t.price)
  }

  /**
   The in-place mutation of the chosen token: price moves by `PriceDelta`,
   is rounded to 4 decimals and floored at `MinPrice`; change moves by up to
   0.25 and is rounded to 2 decimals; volume moves by up to 25000, is rounded
   to an integer and floored at 0. No other field is written.
   */
  function TickToken(t: Token, d: Draws): (r: Token)
    ensures r.price >= MinPrice
    ensures r.volume >= 0.0
    ensures r == t.(price := r.price, change := r.change, volume := r.volume)
  {
    var price := Max(MinPrice, ToFixed(t.price + PriceDelta(t, d.priceJitter), 4));
    var change := ToFixed(t.change + (d.changeJitter - 0.5) * 0.5, 2);
    var volume := Max(0.0, MathRound(t.volume + (d.volumeJitter - 0.5) * 50000.0) as real);
    t.(price := price, change := change, volume := volume)
  }

  /** A price that moved is within one percent of `max(1, price)` plus half a rounding step. */
  lemma PriceMoveBounded(t: Token, d: Draws)
    requires WellFormed(t) && ValidDraws(d)
    ensures Abs(TickToken(t, d).price - t.price) <= 0.01 * Max(1.0, t.price) + 0.00005
  {
    var delta := PriceDelta(t, d.priceJitter);
    DeltaBounded(t, d.priceJitter);
    var c := ToFixed(t.price + delta, 4);
    FourDecimalError(t.price + delta);
    ClampedMoveBounded(t.price, delta, c, 0.01 * Max(1.0, t.price));
  }

  /** A jitter drawn from `[0, 1)` moves the price by at most one percent of `max(1, price)`. */
  lemma DeltaBounded(t: Token, jitter: real)
    requires 0.0 <= jitter < 1.0
    ensures -0.01 * Max(1.0, t.price) <= PriceDelta(t, jitter) <= 0.01 * Max(1.0, t.price)
  {
    var m := Max(1.0, t.price);
    var k := (jitter - 0.5) * 0.02;
    assert PriceDelta(t, jitter) == k * m;
    MulNonNegative(0.01 - k, m);
    MulNonNegative(k + 0.01, m);
  }

  lemma MulNonNegative(a: real, b: real)
    requires a >= 0.0 && b >= 0.0
    ensures a * b >= 0.0
  {
  }

  lemma FourDecimalError(x: real)
    ensures Abs(ToFixed(x, 4) - x) <= 0.00005
  {
    assert Pow10(4) == 10000;
  }

  /** Flooring a rounded candidate at `MinPrice` never moves it further from a price above the floor. */
  lemma ClampedMoveBounded(p: real, delta: real, c: real, b: real)
    requires p >= MinPrice
    requires -b <= delta <= b
    requires Abs(c - (p + delta)) <= 0.00005
    ensures Abs(Max(MinPrice, c) - p) <= b + 0.00005
  {
  }

  /** Change moves by at most 0.25 plus half a cent of rounding. */
  lemma ChangeMoveBounded(t: Token, d: Draws)
    requires ValidDraws(d)
    ensures Abs(TickToken(t, d).change - t.change) <= 0.255
  {
    assert Pow10(2) == 100;
    var x := t.change + (d.changeJitter - 0.5) * 0.5;
    assert Abs(ToFixed(x, 2) - x) <= 0.005;
  }

  /** Volume moves by at most 25000 plus half a unit of rounding. */
  lemma VolumeMoveBounded(t: Token, d: Draws)
    requires WellFormed(t) && ValidDraws(d)
    ensures Abs(TickToken(t, d).volume - t.volume) <= 25000.5
  {
  }

  /** The result of one timer callback: the mutated list and the event's copy. */
  datatype TickOutcome = TickOutcome(tokens: seq<Token>, detail: Token)

  /**
   One run of the interval callback in `PriceBus.start`. It picks an index,
   mutates that token, and dispatches a copy as the `tick` event's detail.
   When the index misses the list (only possible for an empty list), reading
   `t.price` throws and nothing is mutated or dispatched: `None`.
   */
  function PriceBusTick(tokens: seq<Token>, d: Draws): (r: Option<TickOutcome>)
    ensures r.Some? <==> 0 <= PickIndex(d.pick, |tokens|) < |tokens|
    ensures r.Some? ==>
      var i := PickIndex(d.pick, |tokens|);
      && |r.value.tokens| == |tokens|
      && r.value.tokens[i] == TickToken(tokens[i], d)
      && (forall j :: 0 <= j < |tokens| && j != i ==> r.value.tokens[j] == tokens[j])
      && r.value.detail == r.value.tokens[i]
  {
    var i := PickIndex(d.pick, |tokens|);
    if 0 <= i < |tokens| then
      var t := TickToken(tokens[i], d);
      Some(TickOutcome(tokens[i := t], t))
    else
      None
  }

  /** With genuine draws a non-empty list always ticks; an empty one never does. */
  lemma PriceBusTickDefined(tokens: seq<Token>, d: Draws)
    requires ValidDraws(d)
    ensures PriceBusTick(tokens, d).Some? <==> |tokens| > 0
  {
    if |tokens| > 0 {
      PickIndexInRange(d.pick, |tokens|);
    }
  }

  /** A tick keeps every token well formed and every symbol in place. */
  lemma PriceBusTickPreserves(tokens: seq<Token>, d: Draws)
    requires forall i :: 0 <= i < |tokens| ==> WellFormed(tokens[i])
    requires PriceBusTick(tokens, d).Some?
    ensures var ts := PriceBusTick(tokens, d).value.tokens;
      && (forall i :: 0 <= i < |ts| ==> WellFormed(ts[i]) && ts[i].symbol == tokens[i].symbol && ts[i].tag == tokens[i].tag)
      && (SymbolsDistinct(tokens) ==> SymbolsDistinct(ts))
  {
  }
}

=== FILE: ui_slice.dfy ===
/**
 The redux slice holding the table's view state (`lib/ui-slice.ts`): the active
 tab, the sort column and direction, and the symbol whose details are open.
 Each reducer is a pure transition on an immutable record.
 */
module UiSlice {
  import opened Wrappers

  datatype Tab = NewPairs | FinalStretchTab | MigratedTab

  datatype SortKey = Name | Price | Change | Volume | MarketCap

  datatype SortDir = Asc | Desc

  datatype UiState = UiState(
    tab: Tab,
    sortKey: SortKey,
    sortDir: SortDir,
    selectedSymbol: Option<string>)

  /** New pairs, by volume, largest first, nothing selected. */
  const Initial: UiState := UiState(NewPairs, Volume, Desc, None)

  function Flip(d: SortDir): SortDir {
    if d == Asc then Desc else Asc
  }

  function SetTab(s: UiState, t: Tab): (r: UiState)
    ensures r.tab == t
    ensures r.sortKey == s.sortKey && r.sortDir == s.sortDir
    ensures r.selectedSymbol == s.selectedSymbol
  {
    s.(tab := t)
  }

  /**
   Clicking a column header: the same column again reverses the direction,
   a different column becomes the sort column, largest first.
   */
  function SetSort(s: UiState, k: SortKey): (r: UiState)
    ensures r.sortKey == k
    ensures s.sortKey == k ==> r.sortDir != s.sortDir
    ensures s.sortKey != k ==> r.sortDir == Desc
    ensures r.tab == s.tab && r.selectedSymbol == s.selectedSymbol
  {
    if s.sortKey == k then s.(sortDir := Flip(s.sortDir))
    else s.(sortKey := k, sortDir := Desc)
  }

  /** Stores any symbol; nothing checks that a token with it is listed. */
  function OpenDetails(s: UiState, symbol: string): (r: UiState)
    ensures r.selectedSymbol == Some(symbol)
    ensures r.tab == s.tab && r.sortKey == s.sortKey && r.sortDir == s.sortDir
  {
    s.(selectedSymbol := Some(symbol))
  }

  function CloseDetails(s: UiState): (r: UiState)
    ensures r.selectedSymbol.None?
    ensures r.tab == s.tab && r.sortKey == s.sortKey && r.sortDir == s.sortDir
  {
    s.(selectedSymbol := None)
  }

  /** The four action creators the slice exports. */
  datatype Action =
    | SetTabAction(tab: Tab)
    | SetSortAction(key: SortKey)
    | OpenDetailsAction(symbol: string)
    | CloseDetailsAction

  /** The slice's reducer. */
  function Reduce(s: UiState, a: Action): (r: UiState)
    ensures !a.SetTabAction? ==> r.tab == s.tab
    ensures !a.SetSortAction? ==> r.sortKey == s.sortKey && r.sortDir == s.sortDir
    ensures a.SetTabAction? || a.SetSortAction? ==> r.selectedSymbol == s.selectedSymbol
    ensures a.SetTabAction? ==> r.tab == a.tab
    ensures a.SetSortAction? ==> r.sortKey == a.key
    ensures a.SetSortAction? && s.sortKey == a.key ==> r.sortDir == Flip(s.sortDir)
    ensures a.SetSortAction? && s.sortKey != a.key ==> r.sortDir == Desc
    ensures a.OpenDetailsAction? ==> r.selectedSymbol == Some(a.symbol)
    ensures a.CloseDetailsAction? ==> r.selectedSymbol.None?
  {
    match a
    case SetTabAction(t) => SetTab(s, t)
    case SetSortAction(k) => SetSort(s, k)
    case OpenDetailsAction(sym) => OpenDetails(s, sym)
    case CloseDetailsAction => CloseDetails(s)
  }

  /** The store's state after dispatching `acts` in order. */
  function ReduceAll(s: UiState, acts: seq<Action>): UiState
    decreases |acts|
  {
    if |acts| == 0 then s else ReduceAll(Reduce(s, acts[0]), acts[1..])
  }

  /** Sorting by the active column twice gives back the state it started from. */
  lemma SetSortTwiceRestores(s: UiState)
    ensures SetSort(SetSort(s, s.sortKey), s.sortKey) == s
  {
  }

  /** Clicking a new column twice sorts it smallest first. */
  lemma SetSortNewKeyTwice(s: UiState, k: SortKey)
    requires s.sortKey != k
    ensures SetSort(SetSort(s, k), k) == s.(sortKey := k, sortDir := Asc)
  {
  }

  /** `n` clicks on the same header. */
  function RepeatSort(s: UiState, k: SortKey, n: nat): UiState {
    if n == 0 then s else SetSort(RepeatSort(s, k, n - 1), k)
  }

  /**
   After `n >= 1` clicks on header `k` the table is sorted by `k`, and the
   direction depends only on the parity of `n` and on whether `k` was active.
   */
  lemma {:induction false} RepeatSortParity(s: UiState, k: SortKey, n: nat)
    requires n >= 1
    ensures RepeatSort(s, k, n).sortKey == k
    ensures RepeatSort(s, k, n).tab == s.tab
    ensures RepeatSort(s, k, n).selectedSymbol == s.selectedSymbol
    ensures RepeatSort(s, k, n).sortDir ==
      if s.sortKey == k then (if n % 2 == 0 then s.sortDir else Flip(s.sortDir))
      else (if n % 2 == 1 then Desc else Asc)
  {
    if n > 1 {
      RepeatSortParity(s, k, n - 1);
    }
  }

  lemma CloseDetailsIdempotent(s: UiState)
    ensures CloseDetails(CloseDetails(s)) == CloseDetails(s)
    ensures forall sym :: CloseDetails(OpenDetails(s, sym)) == CloseDetails(s)
  {
  }

  /** The tab chosen by the last `setTab` in `acts`, or `current` when there is none. */
  function LastTab(acts: seq<Action>, current: Tab): Tab
    decreases |acts|
  {
    if |acts| == 0 then current
    else if acts[|acts| - 1].SetTabAction? then acts[|acts| - 1].tab
    else LastTab(acts[..|acts| - 1], current)
  }

  /** The selection left by the last `openDetails` or `closeDetails` in `acts`. */
  function LastSelection(acts: seq<Action>, current: Option<string>): Option<string>
    decreases |acts|
  {
    if |acts| == 0 then current
    else match acts[|acts| - 1]
      case OpenDetailsAction(sym) => Some(sym)
      case CloseDetailsAction => None
      case _ => LastSelection(acts[..|acts| - 1], current)
  }

  lemma {:induction false} LastTabCons(a: Action, rest: seq<Action>, current: Tab)
    ensures LastTab([a] + rest, current) == LastTab(rest, Reduce(UiState(current, Name, Asc, None), a).tab)
    decreases |rest|
  {
    if |rest| > 0 {
      assert ([a] + rest)[..|rest|] == [a] + rest[..|rest| - 1];
      LastTabCons(a, rest[..|rest| - 1], current);
    }
  }

  lemma {:induction false} LastSelectionCons(a: Action, rest: seq<Action>, current: Option<string>)
    ensures LastSelection([a] + rest, current) ==
      LastSelection(rest, Reduce(UiState(NewPairs, Name, Asc, current), a).selectedSymbol)
    decreases |rest|
  {
    if |rest| > 0 {
      assert ([a] + rest)[..|rest|] == [a] + rest[..|rest| - 1];
      LastSelectionCons(a, rest[..|rest| - 1], current);
    }
  }

  /**
   Each field has its own writers: the tab is the one the last `setTab` chose,
   the selection is the one the last `openDetails`/`closeDetails` left, and no
   other action touches either.
   */
  lemma {:induction false} ReduceAllLastWriterWins(s: UiState, acts: seq<Action>)
    ensures ReduceAll(s, acts).tab == LastTab(acts, s.tab)
    ensures ReduceAll(s, acts).selectedSymbol == LastSelection(acts, s.selectedSymbol)
    decreases |acts|
  {
    if |acts| > 0 {
      var s' := Reduce(s, acts[0]);
      ReduceAllLastWriterWins(s', acts[1..]);
      assert acts == [acts[0]] + acts[1..];
      LastTabCons(acts[0], acts[1..], s.tab);
      LastSelectionCons(acts[0], acts[1..], s.selectedSymbol);
    }
  }
}

=== FILE: utils.dfy ===
/**
 The string helpers of `lib/utils.ts`: `cn`, which builds a class attribute,
 and the precision choice of `formatPrice`.
 */
module Utils {
  import opened JsNumber

  /** One argument of `cn`: a string, or one of the falsy non-strings it accepts. */
  datatype ClassValue = Str(s: string) | Undefined | Null | False

  /** `Boolean(v)`: only a non-empty string is truthy. */
  predicate Truthy(v: ClassValue) {
    v.Str? && v.s != ""
  }

  /** `classes.filter(Boolean)`, as strings. */
  function Kept(args: seq<ClassValue>): (r: seq<string>)
    ensures forall x :: x in r <==> Str(x) in args && x != ""
    ensures |r| <= |args|
  {
    if |args| == 0 then []
    else
      assert args == [args[0]] + args[1..];
      (if Truthy(args[0]) then [args[0].s] else []) + Kept(args[1..])
  }

  /** Filtering commutes with concatenation, so kept strings stay in argument order. */
  lemma {:induction false} KeptAppend(a: seq<ClassValue>, b: seq<ClassValue>)
    ensures Kept(a + b) == Kept(a) + Kept(b)
  {
    if |a| > 0 {
      assert (a + b)[0] == a[0] && (a + b)[1..] == a[1..] + b;
      KeptAppend(a[1..], b);
    } else {
      assert a + b == b;
    }
  }

  /**
   `Array.prototype.join(" ")`: it opens with the first string, and it is empty
   only when there is nothing to join or a single empty string.
   */
  function JoinSpace(xs: seq<string>): (r: string)
    ensures r == "" <==> |xs| == 0 || (|xs| == 1 && xs[0] == "")
    ensures |xs| >= 1 ==> |xs[0]| <= |r| && r[..|xs[0]|] == xs[0]
  {
    if |xs| == 0 then ""
    else if |xs| == 1 then xs[0]
    else xs[0] + " " + JoinSpace(xs[1..])
  }

  /** `cn(...classes)`: the class string is empty exactly when every argument is falsy. */
  function Cn(args: seq<ClassValue>): (r: string)
    ensures r == "" <==> forall i :: 0 <= i < |args| ==> !Truthy(args[i])
  {
    JoinKeptEmpty(args);
    JoinSpace(Kept(args))
  }

  /** Joining the kept strings gives the empty string exactly when nothing was kept. */
  lemma JoinKeptEmpty(args: seq<ClassValue>)
    ensures JoinSpace(Kept(args)) == "" <==> forall i :: 0 <= i < |args| ==> !Truthy(args[i])
  {
    if forall i :: 0 <= i < |args| ==> !Truthy(args[i]) {
      KeptNone(args);
    } else {
      var i :| 0 <= i < |args| && Truthy(args[i]);
      var xs := Kept(args);
      assert args[i].s in xs;
      assert xs[0] in xs;
      JoinLength(xs);
    }
  }

  lemma {:induction false} KeptNone(args: seq<ClassValue>)
    requires forall i :: 0 <= i < |args| ==> !Truthy(args[i])
    ensures Kept(args) == []
  {
    if |args| > 0 {
      KeptNone(args[1..]);
    }
  }

  function TotalLength(xs: seq<string>): nat {
    if |xs| == 0 then 0 else |xs[0]| + TotalLength(xs[1..])
  }

  /** Exactly one separator goes between consecutive kept strings. */
  lemma {:induction false} JoinLength(xs: seq<string>)
    requires |xs| >= 1
    ensures |JoinSpace(xs)| == TotalLength(xs) + |xs| - 1
  {
    if |xs| > 1 {
      JoinLength(xs[1..]);
    }
  }

  lemma CnLength(args: seq<ClassValue>)
    requires |Kept(args)| >= 1
    ensures |Cn(args)| == TotalLength(Kept(args)) + |Kept(args)| - 1
  {
    JoinLength(Kept(args));
  }

  /** A single class string passes through `cn` unchanged, so `cn` of `cn` is `cn`. */
  lemma CnIdempotent(args: seq<ClassValue>)
    ensures Cn([Str(Cn(args))]) == Cn(args)
  {
    var s := Cn(args);
    assert [Str(s)][1..] == [];
    if s == "" {
      assert Kept([Str(s)]) == [];
    } else {
      assert Kept([Str(s)]) == [s];
    }
  }

  /** ASCII whitespace, which separates the classes of a class attribute. */
  predicate IsWhite(c: char) {
    c == ' ' || c == '\t' || c == '\n' || c == '\r' || c == '\U{C}'
  }

  /** The leading run of non-whitespace characters. */
  function Word(s: string): (w: string)
    ensures |w| <= |s| && w == s[..|w|]
    ensures forall i :: 0 <= i < |w| ==> !IsWhite(w[i])
    ensures |w| < |s| ==> IsWhite(s[|w|])
  {
    if |s| == 0 || IsWhite(s[0]) then "" else [s[0]] + Word(s[1..])
  }

  /** The classes a browser reads from a class attribute: split on whitespace, empty pieces dropped. */
  function ClassList(s: string): seq<string>
    decreases |s|
  {
    if |s| == 0 then []
    else if IsWhite(s[0]) then ClassList(s[1..])
    else
      var w := Word(s);
      [w] + ClassList(s[|w|..])
  }

  predicate NoWhite(s: string) {
    forall i :: 0 <= i < |s| ==> !IsWhite(s[i])
  }

  lemma {:induction false} WordOfSpaced(a: string, b: string)
    ensures Word(a + " " + b) == Word(a)
    decreases |a|
  {
    if |a| > 0 && !IsWhite(a[0]) {
      assert (a + " " + b)[1..] == a[1..] + " " + b;
      WordOfSpaced(a[1..], b);
    } else if |a| == 0 {
      assert (a + " " + b)[0] == ' ';
    } else {
      assert (a + " " + b)[0] == a[0];
    }
  }

  lemma {:induction false} ClassListOfSpaced(a: string, b: string)
    ensures ClassList(a + " " + b) == ClassList(a) + ClassList(b)
    decreases |a|
  {
    var s := a + " " + b;
    if |a| == 0 {
      assert s[0] == ' ' && s[1..] == b;
    } else if IsWhite(a[0]) {
      assert s[0] == a[0] && s[1..] == a[1..] + " " + b;
      ClassListOfSpaced(a[1..], b);
    } else {
      assert s[0] == a[0];
      var w := Word(a);
      WordOfSpaced(a, b);
      assert s[|w|..] == a[|w|..] + " " + b;
      ClassListOfSpaced(a[|w|..], b);
    }
  }

  lemma {:induction false} ClassListOfWord(s: string)
    requires s != "" && NoWhite(s)
    ensures ClassList(s) == [s]
  {
    assert |Word(s)| == |s|;
    assert Word(s) == s[..|s|] == s;
  }

  /** Flattening the class lists of several strings. */
  function ClassLists(xs: seq<string>): seq<string> {
    if |xs| == 0 then [] else ClassList(xs[0]) + ClassLists(xs[1..])
  }

  lemma {:induction false} ClassListOfJoin(xs: seq<string>)
    ensures ClassList(JoinSpace(xs)) == ClassLists(xs)
  {
    if |xs| == 1 {
      assert ClassLists(xs[1..]) == [];
    } else if |xs| > 1 {
      ClassListOfSpaced(xs[0], JoinSpace(xs[1..]));
      ClassListOfJoin(xs[1..]);
    }
  }

  lemma {:induction false} ClassListsOfWords(xs: seq<string>)
    requires forall i :: 0 <= i < |xs| ==> xs[i] != "" && NoWhite(xs[i])
    ensures ClassLists(xs) == xs
  {
    if |xs| > 0 {
      ClassListOfWord(xs[0]);
      ClassListsOfWords(xs[1..]);
    }
  }

  /**
   What `cn` means to the browser: the classes of its result are the classes
   of its truthy arguments, in argument order; for arguments that are single
   class names, reading the result back yields exactly the kept arguments.
   */
  lemma CnClassList(args: seq<ClassValue>)
    ensures ClassList(Cn(args)) == ClassLists(Kept(args))
    ensures (forall i :: 0 <= i < |args| ==> args[i].Str? ==> NoWhite(args[i].s)) ==>
      ClassList(Cn(args)) == Kept(args)
  {
    ClassListOfJoin(Kept(args));
    if forall i :: 0 <= i < |args| ==> args[i].Str? ==> NoWhite(args[i].s) {
      forall k | 0 <= k < |Kept(args)|
        ensures Kept(args)[k] != "" && NoWhite(Kept(args)[k])
      {
        var x := Kept(args)[k];
        assert x in Kept(args);
        var i :| 0 <= i < |args| && args[i] == Str(x);
      }
      ClassListsOfWords(Kept(args));
    }
  }

  /** `formatPrice`'s precision: four decimals below one, two otherwise. */
  function PriceDecimals(n: real): (k: nat)
    ensures k == 2 || k == 4
    ensures k == 4 <==> n < 1.0
  {
    if n < 1.0 then 4 else 2
  }

  /**
   The value `formatPrice(n)` displays: below one, `n` to four decimals and off
   by at most half of the fourth; otherwise to two decimals and off by at most
   half a cent. A non-negative price never displays as negative.
   */
  function FormatPrice(n: real): (r: real)
    ensures n < 1.0 ==> r == ToFixed(n, 4) && Abs(r - n) <= 0.00005
    ensures n >= 1.0 ==> r == ToFixed(n, 2) && Abs(r - n) <= 0.005
    ensures n >= 0.0 ==> r >= 0.0
  {
    assert Pow10(2) == 100 && Pow10(4) == 10000;
    ToFixed(n, PriceDecimals(n))
  }

  /**
   A price at or above the feed's floor of 0.0001 never displays as zero,
   and larger prices never get more decimals than smaller ones.
   */
  lemma FormatPriceShowsFloor(n: real, m: real)
    ensures n >= 0.0001 ==> FormatPrice(n) >= 0.0001
    ensures n <= m ==> PriceDecimals(m) <= PriceDecimals(n)
  {
    if n >= 0.0001 {
      var p := Pow10(PriceDecimals(n)) as real;
      if n < 1.0 {
        assert PriceDecimals(n) == 4 && Pow10(4) == 10000;
      } else {
        assert PriceDecimals(n) == 2 && Pow10(2) == 100;
      }
      var k := FixedDigits(n, PriceDecimals(n));
      assert k as real >= 1.0 - 0.5;
      assert k >= 1;
      assert FormatPrice(n) == k as real / p;
    }
  }
}

=== FILE: wrappers.dfy ===
/** Optional values: the model's stand-in for JavaScript's `undefined`. */
module Wrappers {

  datatype Option<+T> = None | Some(value: T) {

    /** The wrapped value, or `default` when there is none (JavaScript's `??`). */
    function GetOr(default: T): T {
      match this
      case Some(v) => v
      case None => default
    }
  }
}
